=== FILE: README.md ===
# Custom Posts Hierarchy: a Dafny model

The WordPress plugin "4x4 Custom Posts Hierarchy" (`fbf-custom-posts-hierarchy.php`)
lets ordinary posts have parent posts and gives a parented post the link
`<home>/<root slug>/…/<parent slug>/<own slug>`, with no trailing slash. Incoming
requests for such a path are resolved with or without the trailing slash. This project
models the plugin's two core algorithms and the hooks that use them:

- **Path builder** (`get_path_from_post_id`). It walks the parent pointers from a post up to a root,
  collects one slug per visited post, and joins them root first with `/`. The
  caller may override the starting post's slug, for example with `%postname%`. Modelled
  in `PathBuilder`, both as a pure definition (`Chain`, `BuildPath`) and as the
  loop itself (`GetPathFromPostId`).
- **Path resolver** (`get_post_from_uri`). It takes the `post` rows whose slug is the
  request's basename, rebuilds `depth + 2` ancestor levels of each through nested left
  self-joins, renders them as a slash-trimmed path, and keeps the first row whose
  rendering equals the trimmed request path. Modelled in `PathResolver`. The model
  states what the joins compute, a bounded window of ancestors; it does not model the SQL text.
- **Hooks.** These are the `get_sample_permalink` and `post_link` filters (`PermalinkHooks`),
  the `pre_get_posts` routing action (`Routing`) and the `preview_post_link` fix
  (`Preview`).
- **String builtins** the plugin relies on (`Strings`). These are `implode`, `explode`, `trim`,
  MySQL `TRIM(BOTH '/' …)`, `basename`, `str_replace` and `stristr`.

The posts table is a `map<Id, Post>` (`Posts`). Id 0 is the empty parent. A missing
row reads as slug `""` and parent 0, just as PHP reads a property of `null`. Termination
of the walk relies on a ghost rank map, given as the precondition `WellFounded`.
The rank map witnesses that the parent relation has no cycle.

A post has a *clean chain* (`CleanChain`) when every row on its ancestor chain exists and
has a non-empty slug without `/`. Drafts with an empty slug and posts under a deleted
parent do not. The main results are stated for clean chains:
- the round trip `ResolveBuiltPath`: when `r` is a `post` on a clean chain, the request
  `/<built path of r>/` resolves to `r`, provided every other `post` row with the same
  slug is on a clean chain and has another path;
- the matching characterisation `MatchesIffBuiltPath`: on a clean chain, a row matches a
  request exactly when it is a `post` whose built path is the trimmed request;
- the end-to-end routing lemma `RoutesBuiltPath`, under the round trip's hypotheses and
  with no `?` in the slugs of r's chain.

Two details of the code that the model keeps:
- **Dangling parent.** A parent id that names no row does not truncate the path. The
  code appends the empty slug that the `null` post reads as, and then stops, so the
  path gains a leading empty segment (`/tyres`).
- **Depth bound.** The resolver renders `depth + 2` levels, as the loop bound says.
  That is one level more than a request with `depth` segments needs to be told apart
  from a longer ancestry.

## Model

| member | source | states |
|---|---|---|
| Posts.SlugAt | fbf-custom-posts-hierarchy.php:155 | `$p->post_name` on a possibly null `$p`: the row's slug, or `""` for an id that names no row. |
| Posts.ParentOf | fbf-custom-posts-hierarchy.php:157 | `$p->post_parent` on a possibly null `$p`: the row's parent, or the empty parent 0 for an id that names no row, which ends the walk. |
| Posts.Lookup | fbf-custom-posts-hierarchy.php:152 | `get_post` finds a row exactly when the id is in the table, and then the row of that id. |
| PathBuilder.BuildPath | fbf-custom-posts-hierarchy.php:146-161 | The builder's reference definition: the slugs along the ancestor chain (the override for the starting post), reversed and joined with `/`. `GetPathFromPostId` is proved equal to it, and `BuildPathRootFirst` gives its recursive shape. |
| PathBuilder.StepSlug | fbf-custom-posts-hierarchy.php:154-155 | The slug collected for a visited id: the override when the id is the starting post and the override is non-empty, and the stored slug otherwise. `OverrideOnlySubject` states its effect on the whole walk. |
| PathBuilder.Chain | fbf-custom-posts-hierarchy.php:148-158 | The walk visits nothing for the empty id; otherwise it visits the starting id first. |
| PathBuilder.ChainShape | fbf-custom-posts-hierarchy.php:150-158 | Each visited id is non-empty. Consecutive visited ids are a row and its parent. The walk stops exactly when the parent it reads is empty, whether that is 0 or the null of a missing row. |
| PathBuilder.StartNotRevisited | fbf-custom-posts-hierarchy.php:148-157 | Every row reached after the start ranks strictly below it. So the `$pid == $pid_original` test is true only on the first step. |
| PathBuilder.GetPathFromPostId | fbf-custom-posts-hierarchy.php:146-161 | The while loop, which collects slugs and moves to the parent until the id is empty, returns the reversed, `/`-joined slugs of the whole ancestor chain. |
| PathBuilder.BuildPathRootFirst | fbf-custom-posts-hierarchy.php:149-160 | A root's path is its own (possibly overridden) slug. Any other post's path is its parent's un-overridden path, then `/`, then its own slug. |
| PathBuilder.OverrideOnlySubject | fbf-custom-posts-hierarchy.php:153-155 | Without an override every visited post contributes its stored slug. A non-empty override replaces the first slug only. |
| PathBuilder.PathSegments | fbf-custom-posts-hierarchy.php:149-160 | If no slug holds `/`, exploding the path gives the collected slugs root first, one segment per visited post. |
| PathBuilder.CleanPathUnpadded | fbf-custom-posts-hierarchy.php:160 | If every slug on the chain is non-empty and slash-free, the path neither starts nor ends with `/`. |
| PathResolver.Depth | fbf-custom-posts-hierarchy.php:168 | The segment count of the trimmed request is at least one, even for the empty path. |
| PathResolver.Ancestor | fbf-custom-posts-hierarchy.php:184-191 | The row at join level `k + 1`: the base row itself at level 1, then one left join per level, missing once a level is missing or names no row. `AncestorAlongChain` relates it to the builder's walk. |
| PathResolver.LevelSlug | fbf-custom-posts-hierarchy.php:193 | `IFNULL(p{k}_slug,'')`: the slug of a present level, and `""` for a missing one. |
| PathResolver.Candidate | fbf-custom-posts-hierarchy.php:171-172 | The base query's filter: the row exists, has type `post`, and its slug is the request's basename. |
| PathResolver.Matches | fbf-custom-posts-hierarchy.php:196-200 | A candidate row whose trimmed window rendering equals the trimmed request, as the final `where slug = '$trimmedUri'` keeps. `MatchesIffBuiltPath` characterises it on clean chains. |
| PathResolver.Up | fbf-custom-posts-hierarchy.php:188-189 | One left join yields a level exactly when the previous level exists and its parent id names a row; that level is the parent. |
| PathResolver.Window | fbf-custom-posts-hierarchy.php:176-194 | The concats list has one slug per requested level. |
| PathResolver.WindowString | fbf-custom-posts-hierarchy.php:197-199 | The `slug` column: the window's levels in reverse order, joined with `/` and then `TRIM(BOTH '/')`. `WindowStringAlongChain` relates it to the built path. |
| PathResolver.BuildConcats | fbf-custom-posts-hierarchy.php:176-194 | The join-building loop, which adds one left join per iteration, yields exactly the `depth + 2`-level window of ancestor slugs. |
| PathResolver.FirstMatch | fbf-custom-posts-hierarchy.php:202-205 | The returned position holds a matching row, and no row before it matches. If nothing matches, it is the end of the rows. |
| PathResolver.Resolve | fbf-custom-posts-hierarchy.php:163-208 | For a row order that covers the whole posts table, a result is a `post` row whose slug is the basename and whose rendered window equals the trimmed request. There is no result exactly when no row of the table matches. |
| PathResolver.GetPostFromUri | fbf-custom-posts-hierarchy.php:163-208 | The resolver, scanning the rows with the base filter and the window comparison, returns the first matching row or nothing. |
| PathResolver.AncestorAlongChain | fbf-custom-posts-hierarchy.php:184-194 | On a clean chain, join level k+1 is the k-th id the path builder visits. Every level past the root is missing. |
| PathResolver.WindowAlongChain | fbf-custom-posts-hierarchy.php:184-194 | On a clean chain the window holds the chain's slugs. It is cut at the level count, or padded with empty levels up to it. |
| PathResolver.WindowStringAlongChain | fbf-custom-posts-hierarchy.php:196-199 | On a clean chain: if the chain fits in `depth + 2` levels, the trimmed rendering is exactly the path builder's path; otherwise it has `depth + 2` segments. |
| PathResolver.ShortChainWindow | fbf-custom-posts-hierarchy.php:197-199 | On a clean chain that fits in the window, the empty levels become leading separators, which `TRIM(BOTH '/')` removes, leaving the built path. |
| PathResolver.LongChainWindow | fbf-custom-posts-hierarchy.php:184-199 | A clean chain longer than the window renders as `depth + 2` non-empty segments: the slugs of the first `depth + 2` posts of the walk, highest ancestor first. |
| PathResolver.MatchesIffBuiltPath | fbf-custom-posts-hierarchy.php:167-200 | On a clean chain, a row matches a request if and only if it is a `post` whose built path equals the trimmed request. The resolver and the builder agree in both directions. |
| PathResolver.LongerChainNeverMatches | fbf-custom-posts-hierarchy.php:182-200 | A row on a clean chain with more ancestor levels than the request has segments never matches, so the extra level prevents lazy matches. |
| PathResolver.OtherAncestryRejected | fbf-custom-posts-hierarchy.php:196-200 | For r and q both on clean chains, q never matches the request built from r's path when q's built path differs from r's. |
| PathResolver.ResolveUnknownPath | fbf-custom-posts-hierarchy.php:163-205 | When every `post` row whose slug is the request's basename is on a clean chain and has a built path other than the trimmed request, the request resolves to nothing. Rows with other slugs are unconstrained. |
| PathResolver.ResolveBuiltPath | fbf-custom-posts-hierarchy.php:163-208 | Round trip: when r is a `post` on a clean chain, `/<built path of r>/` resolves to r, provided every other `post` row with r's slug is on a clean chain and has another path. Rows with other slugs, such as drafts with an empty slug, are unconstrained. |
| PermalinkHooks.SamplePermalinkFilter | fbf-custom-posts-hierarchy.php:44-61 | A non-post or parentless post keeps its pair. Otherwise each `/%postname%/` in the template gets the parent's path put in front of it, and the replacement slug is kept. |
| PermalinkHooks.SampleTemplateSplice | fbf-custom-posts-hierarchy.php:53-58 | For a template `a/%postname%/b` with no `%` in a or b, the parent's path is spliced in once and nothing else changes. |
| PermalinkHooks.PostLinkFilter | fbf-custom-posts-hierarchy.php:71-83 | A non-post, parentless or draft post keeps its link. Otherwise the link is the home URL of its hierarchical path. The last segment is `%postname%` when the link holds it in any letter case, and the post's own slug otherwise. |
| Routing.SinglePostView | fbf-custom-posts-hierarchy.php:109-116 | `post_type` is `['post']`. `page_id` and the queried object are the post's id. The view is a page and a single view, not home, attachment or 404. Every other query variable is kept. |
| Routing.PreGetPosts | fbf-custom-posts-hierarchy.php:91-124 | If the path is `/`, the query is not the main one, or the request is an admin one, the global query is returned and nothing changes. If the path is unresolved, the incoming query is returned unchanged. If it resolves, the query, the global and the return value are all the single-post view of a matching post. |
| Routing.StripQueryString | fbf-custom-posts-hierarchy.php:97 | The request path with every occurrence of `?<query string>` removed by `str_replace`. `StripQueryStringOfPath` states what it gives for a request path. |
| Routing.StripQueryStringOfPath | fbf-custom-posts-hierarchy.php:95-97 | If the path holds no `?`, stripping `?<query string>` gives the path back, with or without the query string attached. |
| Routing.RoutesBuiltPath | fbf-custom-posts-hierarchy.php:91-124 | End to end: when r is a `post` on a clean chain whose slugs hold no `?`, and the round trip's hypotheses on the other rows hold, the main-query, non-admin request for `/<built path of r>/?<qs>` becomes the single-post view of r. |
| Preview.PreviewRedirectFix | fbf-custom-posts-hierarchy.php:128-144 | A link whose global post is not a draft is kept. A draft's link starts with the same scheme and host. |
| Preview.DraftPreviewKeepsQuery | fbf-custom-posts-hierarchy.php:132-141 | A draft's rewritten link has the path `/index.php` on the same scheme and host and carries the original query string. |
| Strings.Reverse | fbf-custom-posts-hierarchy.php:160 | `array_reverse`: same length, element i is element `n - 1 - i` of the input. |
| Strings.Join | fbf-custom-posts-hierarchy.php:197-199 | `implode('/')` and MySQL's `concat` with `'/'` between levels: the parts with one separator between neighbours. `SplitJoin` and `JoinSplit` make it the inverse of `explode`. |
| Strings.Replace | fbf-custom-posts-hierarchy.php:56 | `str_replace`: a left-to-right scan that replaces each non-overlapping occurrence of the pattern. An empty pattern changes nothing. `ReplaceAfter`, `ReplaceWithoutMatch` and `ReplaceSoleOccurrence` state its behaviour. |
| Strings.ContainsIgnoringCase | fbf-custom-posts-hierarchy.php:79 | `stristr` being truthy: the needle occurs in the haystack once ASCII letters are lower-cased on both sides. |
| Strings.Split | fbf-custom-posts-hierarchy.php:168 | `explode('/')` never yields an empty list, and no piece holds a separator. |
| Strings.Trim | fbf-custom-posts-hierarchy.php:196 | The trimmed string neither starts nor ends with `/`. |
| Strings.TrimCutsOnlySlashes | fbf-custom-posts-hierarchy.php:196-198 | Trimming keeps a contiguous slice of its argument and removes only `/` characters on either side. |
| Strings.Basename | fbf-custom-posts-hierarchy.php:167 | The basename holds no `/`. |
| Strings.BasenameIsLastSegment | fbf-custom-posts-hierarchy.php:167-168 | The basename is the last of the segments the trimmed path explodes into. |
| Strings.SplitJoin | fbf-custom-posts-hierarchy.php:160 | `explode` undoes `implode` when no part holds the separator. |
| Strings.JoinSplit | fbf-custom-posts-hierarchy.php:168 | `implode` undoes `explode` for every string. |
| Strings.TrimBlankLevels | fbf-custom-posts-hierarchy.php:197-199 | Empty trailing levels, once reversed and joined, are removed again by the trim when the rest is unpadded. |
| Strings.ReplaceAfter | fbf-custom-posts-hierarchy.php:97 | If `pat` does not start inside `a`, replacing in `a + pat + b` keeps `a`, replaces that occurrence and continues in `b`. |
| Strings.ReplaceWithoutMatch | fbf-custom-posts-hierarchy.php:97 | A string without an occurrence of the pattern is left unchanged. |
| Strings.ReplaceSoleOccurrence | fbf-custom-posts-hierarchy.php:56 | A pattern whose second character occurs nowhere around it is replaced exactly once. |
| ShopExample.ShopPaths | fbf-custom-posts-hierarchy.php:146-161 | In the shop example the paths are `shop`, `shop/tyres` and `tyres`. |
| ShopExample.ShopTyresResolves | fbf-custom-posts-hierarchy.php:163-208 | `/shop/tyres/` resolves to the child `tyres`, not to the root post of the same slug. |
| ShopExample.ShopWheelsUnresolved | fbf-custom-posts-hierarchy.php:163-208 | `/shop/wheels/` resolves to nothing. |
| ShopExample.DraftTyresResolves | fbf-custom-posts-hierarchy.php:171-172 | Beside an auto-draft with an empty slug, `/shop/tyres/` still resolves to the child `tyres`: the draft never reaches the base query's slug filter. |

## Left out

- `make_posts_hierarchical` (lines 19-34) flips a flag in WordPress's post-type registry and adds editor support. Neither changes any value the core computes.
- Hook registration (`add_filter`, `add_action` and their priorities) and the `global` statements are left out. Each hook is modelled as the function it registers.
- The SQL text, its `sprintf` assembly and `_real_escape` are left out, and so is the unescaped `trimmedUri` spliced into the final `where` clause at line 200. The model compares strings directly, so a request holding a quote character is not modelled.
- MySQL collation is not modelled. Under the default collation the `post_name` and `slug` comparisons ignore letter case and trailing spaces; the model compares exactly.
- The order the database returns the resolver's rows in is unspecified. It is the parameter `rows`, which must list every row of the table (`ScansTable`), and the resolver returns the first match in that order.
- `home_url`, `parse_url` and `get_post` are outside the model. `home_url` is a function parameter. `parse_url`'s result is a `UrlParts` record whose absent parts are empty, and its `false` result for a malformed URL is not modelled. `get_post` is a lookup in the store, and the final `get_post($post->id)` re-fetch is the id itself.
- `$query->is_main_query()`, `is_admin()` and `$_SERVER` are boolean and string parameters. An unset server variable is the empty string, as the `?? ''` defaults give.
- Cyclic parent chains are excluded by the precondition `WellFounded`. On a cycle the source's loop does not terminate.
- The `$post` the hooks receive is assumed to be a row of the store (`id in s`).
- PHP's loose `empty()` on a slug is modelled for the override only (an empty override is ignored). A slug of `"0"`, which PHP's `empty` also treats as empty, is taken as non-empty.
- PathResolver.MatchesIffBuiltPath: stated only for clean chains, where every ancestor exists and has a non-empty, slash-free slug. With empty or dangling levels the window rendering and the built path can differ. A `tyres` post whose parent row is missing builds `/tyres`, yet matches the request `/tyres/`. The same hypothesis limits `WindowStringAlongChain`, `LongerChainNeverMatches`, `OtherAncestryRejected` and `ResolveUnknownPath`.
- PathResolver.ResolveBuiltPath: assumes r itself is a `post` on a clean chain, and every other `post` row with the same slug as r has a clean chain and a different built path. Without r's clean chain the round trip can fail: a `post` with an empty slug under `shop` builds `shop/`, and `/shop//` resolves to `shop`. The plugin does not enforce unique hierarchical paths, and with a duplicate the row order decides. A same-slug row with an empty or dangling ancestor is outside the lemma, because `MatchesIffBuiltPath` does not cover it.
- Routing.PreGetPosts: models only the `WP_Query` fields the action reads or writes. The query object's other state is not modelled.
- Preview.PreviewRedirectFix: for a draft, the contract gives the prefix; the full shape is stated by `DraftPreviewKeepsQuery` under the assumption that scheme and host hold no `?`.

=== FILE: examples_shop.dfy ===
/** A worked example: a root post `shop`, its child `tyres`, and a second root post
    also called `tyres`. */
module ShopExample {
  import opened Strings
  import opened Posts
  import opened PathBuilder
  import opened PathResolver

  function ShopStore(): Store
  {
    map[1 := Post("shop", 0, "post", "publish"),
        2 := Post("tyres", 1, "post", "publish"),
        3 := Post("tyres", 0, "post", "publish")]
  }

  function ShopRank(): map<Id, nat>
  {
    map[1 := 0, 2 := 1, 3 := 0]
  }

  /** The example's parent relation has no cycle: roots rank 0, the child ranks 1. */
  lemma ShopWellFounded()
    ensures WellFounded(ShopStore(), ShopRank())
  {
    var s, rank := ShopStore(), ShopRank();
    forall x | x in s
      ensures x in rank && (s[x].parent in s ==> s[x].parent in rank && rank[s[x].parent] < rank[x])
    {
      assert x == 1 || x == 2 || x == 3;
    }
  }

  /** The root `shop` has the path `shop`. */
  lemma ShopRootPath()
    ensures WellFounded(ShopStore(), ShopRank())
    ensures CleanChain(ShopStore(), ShopRank(), 1)
    ensures BuildPath(ShopStore(), ShopRank(), 1, "") == "shop"
  {
    var s, rank := ShopStore(), ShopRank();
    ShopWellFounded();
    assert Chain(s, rank, 1) == [1];
    BuildPathRootFirst(s, rank, 1, "");
  }

  /** The child `tyres` of `shop` has the path `shop/tyres`. */
  lemma ShopChildPath()
    ensures WellFounded(ShopStore(), ShopRank())
    ensures CleanChain(ShopStore(), ShopRank(), 2)
    ensures BuildPath(ShopStore(), ShopRank(), 2, "") == "shop/tyres"
  {
    var s, rank := ShopStore(), ShopRank();
    ShopRootPath();
    assert Chain(s, rank, 2) == [2] + Chain(s, rank, 1) == [2, 1];
    BuildPathRootFirst(s, rank, 2, "");
  }

  /** The root `tyres` has the path `tyres`. */
  lemma ShopOtherRootPath()
    ensures WellFounded(ShopStore(), ShopRank())
    ensures CleanChain(ShopStore(), ShopRank(), 3)
    ensures BuildPath(ShopStore(), ShopRank(), 3, "") == "tyres"
  {
    var s, rank := ShopStore(), ShopRank();
    ShopWellFounded();
    assert Chain(s, rank, 3) == [3];
    BuildPathRootFirst(s, rank, 3, "");
  }

  /** The built paths of the example, each on a clean chain. */
  lemma ShopPaths()
    ensures WellFounded(ShopStore(), ShopRank())
    ensures CleanChain(ShopStore(), ShopRank(), 1)
    ensures CleanChain(ShopStore(), ShopRank(), 2)
    ensures CleanChain(ShopStore(), ShopRank(), 3)
    ensures BuildPath(ShopStore(), ShopRank(), 1, "") == "shop"
    ensures BuildPath(ShopStore(), ShopRank(), 2, "") == "shop/tyres"
    ensures BuildPath(ShopStore(), ShopRank(), 3, "") == "tyres"
  {
    ShopRootPath();
    ShopChildPath();
    ShopOtherRootPath();
  }

  /** Every post of the example sits on a clean chain whose path is one of the three. */
  lemma ShopPathOf(q: Id)
    requires q in ShopStore()
    ensures WellFounded(ShopStore(), ShopRank()) && CleanChain(ShopStore(), ShopRank(), q)
    ensures BuildPath(ShopStore(), ShopRank(), q, "") == if q == 1 then "shop" else if q == 2 then "shop/tyres" else "tyres"
  {
    ShopPaths();
    assert q == 1 || q == 2 || q == 3;
  }

  /** `shop/tyres` resolves to the child post 2, not to the root post 3 that shares
      its slug. */
  lemma ShopTyresResolves(rows: seq<Id>)
    requires ScansTable(ShopStore(), rows)
    ensures Resolve(ShopStore(), rows, "/shop/tyres/") == Some(2)
  {
    var s, rank := ShopStore(), ShopRank();
    ShopPathOf(2);
    assert "/" + BuildPath(s, rank, 2, "") + "/" == "/shop/tyres/" by {
      assert "/" + "shop/tyres" + "/" == "/shop/tyres/";
    }
    forall q | q in s && q != 2 && s[q].postType == "post" && s[q].slug == s[2].slug
      ensures CleanChain(s, rank, q) && BuildPath(s, rank, q, "") != BuildPath(s, rank, 2, "")
    {
      ShopPathOf(q);
    }
    ResolveBuiltPath(s, rank, rows, 2);
  }

  /** `shop/wheels` names no post. */
  lemma ShopWheelsUnresolved(rows: seq<Id>)
    requires ScansTable(ShopStore(), rows)
    ensures Resolve(ShopStore(), rows, "/shop/wheels/") == None
  {
    var s, rank := ShopStore(), ShopRank();
    ShopWellFounded();
    ShopWheelsTrimmed();
    forall q | q in s && s[q].postType == "post" && s[q].slug == Basename("/shop/wheels/")
      ensures CleanChain(s, rank, q) && BuildPath(s, rank, q, "") != Trim("/shop/wheels/")
    {
      ShopPathOf(q);
    }
    ResolveUnknownPath(s, rank, rows, "/shop/wheels/");
  }

  /** The request `/shop/wheels/` trims to `shop/wheels`. */
  lemma ShopWheelsTrimmed()
    ensures Trim("/shop/wheels/") == "shop/wheels"
  {
    var p := "shop/wheels";
    assert Unpadded(p);
    TrimWrapped(p);
    assert "/shop/wheels/" == "/" + p + "/";
  }

  /** A table as WordPress leaves it after an editor has been opened: `shop`, its child
      `tyres`, and an auto-draft whose slug is still empty. */
  function DraftStore(): Store
  {
    map[1 := Post("shop", 0, "post", "publish"),
        2 := Post("tyres", 1, "post", "publish"),
        4 := Post("", 0, "post", "auto-draft")]
  }

  function DraftRank(): map<Id, nat>
  {
    map[1 := 0, 2 := 1, 4 := 0]
  }

  /** The draft table's parent relation has no cycle. */
  lemma DraftWellFounded()
    ensures WellFounded(DraftStore(), DraftRank())
  {
    var s, rank := DraftStore(), DraftRank();
    forall x | x in s
      ensures x in rank && (s[x].parent in s ==> s[x].parent in rank && rank[s[x].parent] < rank[x])
    {
      assert x == 1 || x == 2 || x == 4;
    }
  }

  /** The root `shop` has the path `shop` beside the draft. */
  lemma DraftRootPath()
    ensures WellFounded(DraftStore(), DraftRank())
    ensures CleanChain(DraftStore(), DraftRank(), 1)
    ensures BuildPath(DraftStore(), DraftRank(), 1, "") == "shop"
  {
    var s, rank := DraftStore(), DraftRank();
    DraftWellFounded();
    assert Chain(s, rank, 1) == [1];
    BuildPathRootFirst(s, rank, 1, "");
  }

  /** The child `tyres` of `shop` still has the path `shop/tyres` beside the draft. */
  lemma DraftChildPath()
    ensures WellFounded(DraftStore(), DraftRank())
    ensures CleanChain(DraftStore(), DraftRank(), 2)
    ensures BuildPath(DraftStore(), DraftRank(), 2, "") == "shop/tyres"
  {
    var s, rank := DraftStore(), DraftRank();
    DraftRootPath();
    assert Chain(s, rank, 2) == [2] + Chain(s, rank, 1) == [2, 1];
    BuildPathRootFirst(s, rank, 2, "");
  }

  /** `shop/tyres` resolves to post 2 although the table holds a draft whose empty
      slug makes its own chain unclean: the draft is never a candidate. */
  lemma DraftTyresResolves(rows: seq<Id>)
    requires ScansTable(DraftStore(), rows)
    ensures Resolve(DraftStore(), rows, "/shop/tyres/") == Some(2)
  {
    var s, rank := DraftStore(), DraftRank();
    DraftChildPath();
    assert !CleanChain(s, rank, 4) by {
      assert Chain(s, rank, 4)[0] == 4;
    }
    assert "/" + BuildPath(s, rank, 2, "") + "/" == "/shop/tyres/" by {
      assert "/" + "shop/tyres" + "/" == "/shop/tyres/";
    }
    DraftSlugsDistinct();
    ResolveBuiltPath(s, rank, rows, 2);
  }

  /** No other row of the draft table shares the slug of post 2. */
  lemma DraftSlugsDistinct()
    ensures forall q :: q in DraftStore() && q != 2 ==> DraftStore()[q].slug != DraftStore()[2].slug
  {
    var s := DraftStore();
    forall q | q in s && q != 2
      ensures s[q].slug != s[2].slug
    {
      assert q == 1 || q == 4;
    }
  }
}

=== FILE: path_builder.dfy ===
/** The path builder, `get_path_from_post_id($pid, $current_slug = '')`: walk the
    parent pointers from a post up to a root, collecting slugs, and join them root
    first with '/'. */
module PathBuilder {
  import opened Strings
  import opened Posts

  /** `b` is what the walk reads as the parent of the existing row `a`. */
  predicate Linked(s: Store, a: Id, b: Id)
  {
    a in s && b == s[a].parent
  }

  /** The ids the ancestor walk visits, the starting id first; the walk from the
      empty id visits nothing. */
  function Chain(s: Store, ghost rank: map<Id, nat>, id: Id): (c: seq<Id>)
    requires WellFounded(s, rank)
    ensures |c| == 0 <==> id == 0
    ensures |c| > 0 ==> c[0] == id
    decreases if id == 0 then 0 else if id in s then rank[id] + 2 else 1
  {
    if id == 0 then []
    else [id] + Chain(s, rank, ParentOf(s, id))
  }

  /** The slug recorded for a visited id: the override, when it is non-empty, stands in
      for the slug of the starting id; every other id contributes its stored slug. */
  function StepSlug(s: Store, start: Id, override: string, x: Id): string
  {
    if x == start && override != "" then override else SlugAt(s, x)
  }

  /** The slugs collected along `chain`, in visiting order (leaf first). */
  function ChainSlugs(s: Store, chain: seq<Id>, start: Id, override: string): (r: seq<string>)
    ensures |r| == |chain|
  {
    seq(|chain|, i requires 0 <= i < |chain| => StepSlug(s, start, override, chain[i]))
  }

  /** `get_path_from_post_id(id, override)`: the collected slugs reversed and joined. */
  function BuildPath(s: Store, ghost rank: map<Id, nat>, id: Id, override: string): string
    requires WellFounded(s, rank)
  {
    Join(Reverse(ChainSlugs(s, Chain(s, rank, id), id, override)))
  }

  /** Every row on the ancestor chain of `id` exists and has a non-empty slug without
      a '/': the shape WordPress gives sanitised slugs of a parented post. */
  ghost predicate CleanChain(s: Store, rank: map<Id, nat>, id: Id)
    requires WellFounded(s, rank)
  {
    var c := Chain(s, rank, id);
    |c| > 0 && forall i :: 0 <= i < |c| ==> c[i] in s && s[c[i]].slug != "" && '/' !in s[c[i]].slug
  }

  /** The walk as the source writes it: append a slug per visited id, move to the
      parent, stop on an empty parent id, then reverse and join. */
  method GetPathFromPostId(s: Store, ghost rank: map<Id, nat>, pid: Id, currentSlug: string)
    returns (path: string)
    requires WellFounded(s, rank)
    ensures path == BuildPath(s, rank, pid, currentSlug)
  {
    var slugs: seq<string> := [];
    var p := pid;
    ghost var visited: seq<Id> := [];
    while p != 0
      invariant visited + Chain(s, rank, p) == Chain(s, rank, pid)
      invariant slugs == ChainSlugs(s, visited, pid, currentSlug)
      decreases if p == 0 then 0 else if p in s then rank[p] + 2 else 1
    {
      ChainSlugsSnoc(s, visited, p, pid, currentSlug);
      WalkStep(s, rank, visited, p, pid);
      slugs := slugs + [if p == pid && currentSlug != "" then currentSlug else SlugAt(s, p)];
      visited := visited + [p];
      p := ParentOf(s, p);
    }
    assert visited == Chain(s, rank, pid);
    path := Join(Reverse(slugs));
  }

  /** One step of the walk moves the current id from the unvisited part of the chain
      to the visited part. */
  lemma WalkStep(s: Store, rank: map<Id, nat>, visited: seq<Id>, p: Id, pid: Id)
    requires WellFounded(s, rank) && p != 0
    requires visited + Chain(s, rank, p) == Chain(s, rank, pid)
    ensures (visited + [p]) + Chain(s, rank, ParentOf(s, p)) == Chain(s, rank, pid)
  {
    var rest := Chain(s, rank, ParentOf(s, p));
    assert Chain(s, rank, p) == [p] + rest;
    assert (visited + [p]) + rest == visited + ([p] + rest);
  }

  /** Visiting one more id appends its slug to the collected ones. */
  lemma ChainSlugsSnoc(s: Store, chain: seq<Id>, x: Id, start: Id, override: string)
    ensures ChainSlugs(s, chain + [x], start, override)
            == ChainSlugs(s, chain, start, override) + [StepSlug(s, start, override, x)]
  {
  }

  // ---------------------------------------------------------------------------
  // Lemmas

  /** Chain shape: each visited id is an existing row followed by its parent, no
      visited id is empty, and the walk stops exactly when the parent it reads is empty
      (0, or the null of a missing row). */
  lemma {:induction false} ChainShape(s: Store, rank: map<Id, nat>, id: Id)
    requires WellFounded(s, rank)
    ensures forall i :: 0 <= i < |Chain(s, rank, id)| ==> Chain(s, rank, id)[i] != 0
    ensures forall i :: 0 <= i < |Chain(s, rank, id)| - 1 ==>
              Linked(s, Chain(s, rank, id)[i], Chain(s, rank, id)[i + 1])
    ensures id != 0 ==> ParentOf(s, Last(Chain(s, rank, id))) == 0
    decreases if id == 0 then 0 else if id in s then rank[id] + 2 else 1
  {
    if id != 0 {
      var p := ParentOf(s, id);
      ChainShape(s, rank, p);
      var c := Chain(s, rank, id);
      var cp := Chain(s, rank, p);
      assert c == [id] + cp;
      forall i | 0 <= i < |c| - 1
        ensures Linked(s, c[i], c[i + 1])
      {
        if i > 0 {
          assert c[i] == cp[i - 1] && c[i + 1] == cp[i];
        }
      }
      if |cp| > 0 {
        assert Last(c) == Last(cp);
      }
    }
  }

  /** Every existing row the walk reaches after the start ranks below the start, so
      the walk never comes back to the starting id. */
  lemma {:induction false} StartNotRevisited(s: Store, rank: map<Id, nat>, id: Id)
    requires WellFounded(s, rank)
    ensures id in s ==> forall i :: 0 < i < |Chain(s, rank, id)| && Chain(s, rank, id)[i] in s ==>
                          rank[Chain(s, rank, id)[i]] < rank[id]
    ensures forall i :: 0 < i < |Chain(s, rank, id)| ==> Chain(s, rank, id)[i] != id
    decreases if id == 0 then 0 else if id in s then rank[id] + 2 else 1
  {
    if id != 0 {
      var p := ParentOf(s, id);
      StartNotRevisited(s, rank, p);
      var c := Chain(s, rank, id);
      assert c == [id] + Chain(s, rank, p);
      forall i | 0 < i < |c| && c[i] in s
        ensures rank[c[i]] < rank[id]
      {
        assert c[i] == Chain(s, rank, p)[i - 1];
      }
    }
  }

  /** Build order: the path of a post is its parent's path, built without any
      override, followed by its own (possibly overridden) slug; a root's path is just
      that slug. */
  lemma BuildPathRootFirst(s: Store, rank: map<Id, nat>, id: Id, override: string)
    requires WellFounded(s, rank) && id != 0
    ensures var own := if override != "" then override else SlugAt(s, id);
            BuildPath(s, rank, id, override) ==
              if ParentOf(s, id) == 0 then own
              else BuildPath(s, rank, ParentOf(s, id), "") + "/" + own
  {
    var own := if override != "" then override else SlugAt(s, id);
    var p := ParentOf(s, id);
    var c := Chain(s, rank, id);
    var cp := Chain(s, rank, p);
    assert c == [id] + cp;
    var t := ChainSlugs(s, cp, p, "");
    StartNotRevisited(s, rank, id);
    assert ChainSlugs(s, c, id, override) == [own] + t by {
      forall i | 0 < i < |c|
        ensures ChainSlugs(s, c, id, override)[i] == t[i - 1]
      {
        assert c[i] == cp[i - 1] && c[i] != id;
      }
    }
    assert Reverse([own] + t) == Reverse(t) + [own];
    if p != 0 {
      JoinSnoc(Reverse(t), own);
    }
  }

  /** Override scope: a non-empty override changes the first collected slug, the one
      of the starting post, and no other; without an override every visited post
      contributes its stored slug. */
  lemma OverrideOnlySubject(s: Store, rank: map<Id, nat>, id: Id, override: string)
    requires WellFounded(s, rank) && id != 0
    ensures forall i :: 0 <= i < |Chain(s, rank, id)| ==>
              ChainSlugs(s, Chain(s, rank, id), id, "")[i] == SlugAt(s, Chain(s, rank, id)[i])
    ensures override != "" ==>
              ChainSlugs(s, Chain(s, rank, id), id, override)
              == ChainSlugs(s, Chain(s, rank, id), id, "")[0 := override]
  {
    StartNotRevisited(s, rank, id);
  }

  /** Segment count: when no collected slug contains '/', splitting the path gives back
      the collected slugs root first, one segment per visited post. */
  lemma PathSegments(s: Store, rank: map<Id, nat>, id: Id, override: string)
    requires WellFounded(s, rank) && id != 0
    requires forall x :: x in Chain(s, rank, id) ==> '/' !in StepSlug(s, id, override, x)
    ensures var slugs := ChainSlugs(s, Chain(s, rank, id), id, override);
            Split(BuildPath(s, rank, id, override)) == Reverse(slugs)
    ensures |Split(BuildPath(s, rank, id, override))| == |Chain(s, rank, id)|
  {
    var c := Chain(s, rank, id);
    var r := Reverse(ChainSlugs(s, c, id, override));
    forall i | 0 <= i < |r| ensures '/' !in r[i] {
      assert c[|c| - 1 - i] in c;
    }
    SplitJoin(r);
  }

  /** On a clean chain the built path is unpadded: it neither starts nor ends with '/'. */
  lemma CleanPathUnpadded(s: Store, rank: map<Id, nat>, id: Id)
    requires WellFounded(s, rank) && CleanChain(s, rank, id)
    ensures Unpadded(BuildPath(s, rank, id, ""))
  {
    var c := Chain(s, rank, id);
    var r := Reverse(ChainSlugs(s, c, id, ""));
    JoinUnpadded(r);
  }
}

=== FILE: path_resolver.dfy ===
/** The path resolver, `get_post_from_uri($uri)`: one query that, for every `post` row
    whose slug is the last segment of the request path, reconstructs a fixed number of
    ancestor levels through nested left self-joins, renders them as a path and keeps
    the row whose rendered path equals the slash-trimmed request path. The model states
    what the joins compute (a bounded window of ancestors), not the SQL text. */
module PathResolver {
  import opened Strings
  import opened Posts
  import opened PathBuilder

  /** `count(explode('/', trim($uri, '/')))`: the number of segments of the request
      path, empty ones included; at least one. */
  function Depth(uri: string): (d: nat)
    ensures d >= 1
  {
    |Split(Trim(uri))|
  }

  /** One more left join, `left join posts p{k+1} on p{k+1}.id = d{k}.p{k}_parent`:
      the row whose id is the parent column of the previous level. A level that is
      missing (NULL), or whose parent id matches no row, yields a missing level. */
  function Up(s: Store, level: Option<Id>): (r: Option<Id>)
    ensures r.Some? <==> level.Some? && level.value in s && s[level.value].parent in s
    ensures r.Some? ==> r.value == s[level.value].parent
  {
    if level.Some? && level.value in s then Lookup(s, s[level.value].parent) else None
  }

  /** Level `k + 1` of the joined row (`p{k+1}`), for the base row `id`: its `k`-th
      ancestor, or missing once the chain of rows has broken off. */
  function Ancestor(s: Store, id: Id, k: nat): Option<Id>
  {
    if k == 0 then Lookup(s, id) else Up(s, Ancestor(s, id, k - 1))
  }

  /** `IFNULL(p{k}_slug, '')`: a level's slug, empty when the level is missing. */
  function LevelSlug(s: Store, level: Option<Id>): string
  {
    if level.Some? && level.value in s then s[level.value].slug else ""
  }

  /** The `concats` list: the slugs of the first `n` levels, base row first. */
  function Window(s: Store, id: Id, n: nat): (w: seq<string>)
    ensures |w| == n
  {
    seq(n, k requires 0 <= k < n => LevelSlug(s, Ancestor(s, id, k)))
  }

  /** The `slug` column of the outer select: the `depth + 2` levels in reverse,
      concatenated with '/' between them, then `TRIM(BOTH '/' ...)`. */
  function WindowString(s: Store, id: Id, depth: nat): string
  {
    Trim(Join(Reverse(Window(s, id, depth + 2))))
  }

  /** The base query's filter: a `post` row whose slug is the request's basename. */
  predicate Candidate(s: Store, id: Id, uri: string)
  {
    id in s && s[id].postType == "post" && s[id].slug == Basename(uri)
  }

  /** A row the final `where slug = trimmedUri` keeps. */
  predicate Matches(s: Store, id: Id, uri: string)
  {
    Candidate(s, id, uri) && WindowString(s, id, Depth(uri)) == Trim(uri)
  }

  /** `rows` is an order on the whole posts table: the query scans every row. */
  predicate ScansTable(s: Store, rows: seq<Id>)
  {
    forall x :: x in s ==> x in rows
  }

  /** The position of the first matching row in `rows`, the order the database returns
      the joined rows in; `|rows|` when no row matches. */
  function FirstMatch(s: Store, rows: seq<Id>, uri: string): (k: nat)
    ensures k <= |rows|
    ensures forall j :: 0 <= j < k ==> !Matches(s, rows[j], uri)
    ensures k < |rows| ==> Matches(s, rows[k], uri)
  {
    if |rows| == 0 then 0
    else if Matches(s, rows[0], uri) then 0
    else
      var k := FirstMatch(s, rows[1..], uri);
      assert forall j :: 0 < j < |rows| ==> rows[j] == rows[1..][j - 1];
      k + 1
  }

  /** The resolver's answer (`false` is `None`): the first row, in the table order
      `rows`, that is a `post` whose slug is the request's basename and whose rendered
      window equals the slash-trimmed request path. There is no answer exactly when no
      row of the table matches. */
  function Resolve(s: Store, rows: seq<Id>, uri: string): (r: Option<Id>)
    requires ScansTable(s, rows)
    ensures r.Some? ==> r.value in rows
    ensures r.Some? ==> r.value in s && s[r.value].postType == "post"
    ensures r.Some? ==> s[r.value].slug == Basename(uri)
    ensures r.Some? ==> WindowString(s, r.value, Depth(uri)) == Trim(uri)
    ensures r.None? <==> forall i :: 0 <= i < |rows| ==> !Matches(s, rows[i], uri)
    ensures r.None? <==> forall x :: x in s ==> !Matches(s, x, uri)
  {
    var k := FirstMatch(s, rows, uri);
    if k < |rows| then Some(rows[k])
    else
      assert forall x :: x in s ==> !Matches(s, x, uri) by {
        forall x | x in s
          ensures !Matches(s, x, uri)
        {
          var i :| 0 <= i < |rows| && rows[i] == x;
        }
      }
      None
  }

  /** The `for` loop that nests the joins: it starts from the base level and adds one
      level per iteration, so the `concats` list ends with exactly `depth + 2` levels. */
  method BuildConcats(s: Store, id: Id, depth: nat) returns (concats: seq<string>)
    ensures |concats| == depth + 2
    ensures concats == Window(s, id, depth + 2)
  {
    var level := Lookup(s, id);
    concats := [LevelSlug(s, level)];
    WindowSnoc(s, id, 0);
    var c := 1;
    while c < depth + 2
      invariant 1 <= c <= depth + 2
      invariant level == Ancestor(s, id, c - 1)
      invariant concats == Window(s, id, c)
    {
      level := Up(s, level);
      WindowSnoc(s, id, c);
      concats := concats + [LevelSlug(s, level)];
      c := c + 1;
    }
  }

  /** Joining one more level appends the slug of the next ancestor to the window. */
  lemma WindowSnoc(s: Store, id: Id, n: nat)
    ensures Window(s, id, n + 1) == Window(s, id, n) + [LevelSlug(s, Ancestor(s, id, n))]
  {
  }

  /** `get_post_from_uri($uri)` with the table's rows read in the order `rows`. */
  method GetPostFromUri(s: Store, rows: seq<Id>, uri: string) returns (r: Option<Id>)
    requires ScansTable(s, rows)
    ensures r == Resolve(s, rows, uri)
  {
    var basename := Basename(uri);
    var depth := Depth(uri);
    var trimmedUri := Trim(uri);
    var i := 0;
    while i < |rows|
      invariant 0 <= i <= |rows|
      invariant forall j :: 0 <= j < i ==> !Matches(s, rows[j], uri)
    {
      var id := rows[i];
      var matched := false;
      if id in s && s[id].postType == "post" && s[id].slug == basename {
        var concats := BuildConcats(s, id, depth);
        CandidateFilter(s, id, uri, concats);
        matched := Trim(Join(Reverse(concats))) == trimmedUri;
      }
      if matched {
        ResolveAt(s, rows, uri, i);
        return Some(id);
      }
      i := i + 1;
    }
    return None;
  }

  /** A candidate row whose window has been built as `concats` matches exactly when
      the rendered `concats` equal the trimmed request. */
  lemma CandidateFilter(s: Store, id: Id, uri: string, concats: seq<string>)
    requires Candidate(s, id, uri) && concats == Window(s, id, Depth(uri) + 2)
    ensures Matches(s, id, uri) <==> Trim(Join(Reverse(concats))) == Trim(uri)
  {
    RenderedConcats(s, id, Depth(uri), concats);
  }

  /** Rendering the built `concats` list is rendering the window. */
  lemma RenderedConcats(s: Store, id: Id, depth: nat, concats: seq<string>)
    requires concats == Window(s, id, depth + 2)
    ensures Trim(Join(Reverse(concats))) == WindowString(s, id, depth)
  {
  }

  /** The first matching row, in the table order, is the resolver's answer. */
  lemma ResolveAt(s: Store, rows: seq<Id>, uri: string, i: nat)
    requires ScansTable(s, rows) && i < |rows|
    requires forall j :: 0 <= j < i ==> !Matches(s, rows[j], uri)
    requires Matches(s, rows[i], uri)
    ensures Resolve(s, rows, uri) == Some(rows[i])
  {
  }

  // ---------------------------------------------------------------------------
  // Lemmas

  /** On a clean chain, level `k + 1` of the join is the `k`-th id the path builder's
      walk visits, and every level past the root is missing. */
  lemma {:induction false} AncestorAlongChain(s: Store, rank: map<Id, nat>, id: Id, k: nat)
    requires WellFounded(s, rank) && CleanChain(s, rank, id)
    ensures k < |Chain(s, rank, id)| ==> Ancestor(s, id, k) == Some(Chain(s, rank, id)[k])
    ensures k >= |Chain(s, rank, id)| ==> Ancestor(s, id, k) == None
    decreases k
  {
    var c := Chain(s, rank, id);
    ChainShape(s, rank, id);
    if k > 0 {
      AncestorAlongChain(s, rank, id, k - 1);
      if k < |c| {
        assert Linked(s, c[k - 1], c[k]);
      } else if k == |c| {
        assert Last(c) == c[k - 1];
      }
    }
  }

  /** On a clean chain the window holds the chain's slugs, base row first, cut off at
      `n` levels or padded with empty levels up to `n`. */
  lemma WindowAlongChain(s: Store, rank: map<Id, nat>, id: Id, n: nat)
    requires WellFounded(s, rank) && CleanChain(s, rank, id)
    ensures var slugs := ChainSlugs(s, Chain(s, rank, id), id, "");
            Window(s, id, n) == if n <= |slugs| then slugs[..n] else slugs + Blanks(n - |slugs|)
  {
    var c := Chain(s, rank, id);
    var slugs := ChainSlugs(s, c, id, "");
    var w := Window(s, id, n);
    var expected := if n <= |slugs| then slugs[..n] else slugs + Blanks(n - |slugs|);
    forall k | 0 <= k < n
      ensures w[k] == expected[k]
    {
      AncestorAlongChain(s, rank, id, k);
    }
  }

  /** The rendered window of a clean chain. When the whole chain fits into the
      `depth + 2` levels the missing levels only add leading separators, which the trim
      removes, leaving the built path; otherwise the rendering has `depth + 2` segments. */
  lemma WindowStringAlongChain(s: Store, rank: map<Id, nat>, id: Id, depth: nat)
    requires WellFounded(s, rank) && CleanChain(s, rank, id)
    ensures |Chain(s, rank, id)| <= depth + 2 ==>
              WindowString(s, id, depth) == BuildPath(s, rank, id, "")
    ensures |Chain(s, rank, id)| > depth + 2 ==>
              |Split(WindowString(s, id, depth))| == depth + 2
  {
    if |Chain(s, rank, id)| <= depth + 2 {
      ShortChainWindow(s, rank, id, depth);
    } else {
      LongChainWindow(s, rank, id, depth);
    }
  }

  /** A chain that fits into the window: the empty levels become leading separators
      and the trim removes them. */
  lemma ShortChainWindow(s: Store, rank: map<Id, nat>, id: Id, depth: nat)
    requires WellFounded(s, rank) && CleanChain(s, rank, id)
    requires |Chain(s, rank, id)| <= depth + 2
    ensures WindowString(s, id, depth) == BuildPath(s, rank, id, "")
  {
    var c := Chain(s, rank, id);
    var slugs := ChainSlugs(s, c, id, "");
    WindowAlongChain(s, rank, id, depth + 2);
    CleanPathUnpadded(s, rank, id);
    PaddedWindowString(s, id, depth, slugs, depth + 2 - |c|);
  }

  /** A window made of an unpadded run of levels followed by empty levels renders as
      that run alone. */
  lemma PaddedWindowString(s: Store, id: Id, depth: nat, slugs: seq<string>, m: nat)
    requires |slugs| > 0 && Unpadded(Join(Reverse(slugs)))
    requires Window(s, id, depth + 2) == slugs + Blanks(m)
    ensures WindowString(s, id, depth) == Join(Reverse(slugs))
  {
    TrimBlankLevels(slugs, m);
  }

  /** A chain longer than the window: the rendering holds `depth + 2` non-empty
      segments, the slugs of the walk's first `depth + 2` posts with the highest
      ancestor first, and nothing for the trim to remove. */
  lemma LongChainWindow(s: Store, rank: map<Id, nat>, id: Id, depth: nat)
    requires WellFounded(s, rank) && CleanChain(s, rank, id)
    requires |Chain(s, rank, id)| > depth + 2
    ensures |Split(WindowString(s, id, depth))| == depth + 2
    ensures forall i :: 0 <= i < depth + 2 ==> Split(WindowString(s, id, depth))[i] != ""
    ensures Split(WindowString(s, id, depth))
         == Reverse(ChainSlugs(s, Chain(s, rank, id), id, "")[..depth + 2])
  {
    var c := Chain(s, rank, id);
    var slugs := ChainSlugs(s, c, id, "");
    var n := depth + 2;
    WindowAlongChain(s, rank, id, n);
    var parts := slugs[..n];
    forall k | 0 <= k < |parts|
      ensures parts[k] != "" && '/' !in parts[k]
    {
      assert parts[k] == SlugAt(s, c[k]);
    }
    SegmentedWindowString(s, id, depth, parts);
  }

  /** A window whose levels are all non-empty and slash-free renders as one segment
      per level, root first. */
  lemma SegmentedWindowString(s: Store, id: Id, depth: nat, parts: seq<string>)
    requires Window(s, id, depth + 2) == parts
    requires forall k :: 0 <= k < |parts| ==> parts[k] != "" && '/' !in parts[k]
    ensures Split(WindowString(s, id, depth)) == Reverse(parts)
    ensures |Split(WindowString(s, id, depth))| == depth + 2
  {
    var r := Reverse(parts);
    forall i | 0 <= i < |r|
      ensures r[i] != "" && '/' !in r[i]
    {
      assert r[i] == parts[|parts| - 1 - i];
    }
    JoinUnpadded(r);
    var j := Join(r);
    TrimPadded(0, j, 0);
    assert Slashes(0) + j + Slashes(0) == j;
    SplitJoin(r);
  }

  /** The resolver's filter on a clean chain: a row matches a request exactly when it
      is a `post` and its built path equals the slash-trimmed request path. */
  lemma MatchesIffBuiltPath(s: Store, rank: map<Id, nat>, id: Id, uri: string)
    requires WellFounded(s, rank) && CleanChain(s, rank, id)
    ensures Matches(s, id, uri) <==>
              s[id].postType == "post" && BuildPath(s, rank, id, "") == Trim(uri)
  {
    var c := Chain(s, rank, id);
    var slugs := ChainSlugs(s, c, id, "");
    var p := BuildPath(s, rank, id, "");
    forall x | x in c
      ensures '/' !in StepSlug(s, id, "", x)
    {
    }
    PathSegments(s, rank, id, "");
    WindowStringAlongChain(s, rank, id, Depth(uri));
    BasenameIsLastSegment(uri);
    if BuildPath(s, rank, id, "") == Trim(uri) {
      assert Last(Split(p)) == Reverse(slugs)[|c| - 1] == slugs[0];
    }
  }

  /** Depth bound: with non-empty, slash-free slugs, a row whose ancestor chain has
      more levels than the request path has segments never matches. */
  lemma LongerChainNeverMatches(s: Store, rank: map<Id, nat>, id: Id, uri: string)
    requires WellFounded(s, rank) && CleanChain(s, rank, id)
    requires |Chain(s, rank, id)| > Depth(uri)
    ensures !Matches(s, id, uri)
  {
    MatchesIffBuiltPath(s, rank, id, uri);
    forall x | x in Chain(s, rank, id)
      ensures '/' !in StepSlug(s, id, "", x)
    {
    }
    PathSegments(s, rank, id, "");
  }

  /** A row with the same slug but another ancestry (so another built path) is never
      returned for the request built from `r`'s path. */
  lemma OtherAncestryRejected(s: Store, rank: map<Id, nat>, r: Id, q: Id)
    requires WellFounded(s, rank) && CleanChain(s, rank, r) && CleanChain(s, rank, q)
    requires BuildPath(s, rank, q, "") != BuildPath(s, rank, r, "")
    ensures !Matches(s, q, "/" + BuildPath(s, rank, r, "") + "/")
  {
    var p := BuildPath(s, rank, r, "");
    CleanPathUnpadded(s, rank, r);
    TrimWrapped(p);
    MatchesIffBuiltPath(s, rank, q, "/" + p + "/");
  }

  /** A request whose trimmed path is the built path of no `post` row with the
      request's basename as slug resolves to nothing, when those rows have clean
      chains. Rows with another slug are never candidates and may be anything. */
  lemma ResolveUnknownPath(s: Store, rank: map<Id, nat>, rows: seq<Id>, uri: string)
    requires WellFounded(s, rank) && ScansTable(s, rows)
    requires forall q :: q in s && s[q].postType == "post" && s[q].slug == Basename(uri) ==>
               CleanChain(s, rank, q) && BuildPath(s, rank, q, "") != Trim(uri)
    ensures Resolve(s, rows, uri) == None
  {
    forall q | q in s
      ensures !Matches(s, q, uri)
    {
      if s[q].postType == "post" && s[q].slug == Basename(uri) {
        MatchesIffBuiltPath(s, rank, q, uri);
      }
    }
  }

  /** Round trip: a `post` row on a clean chain is what the resolver returns for the
      request `/<its built path>/`, provided every other `post` row with the same slug
      has a clean chain and a different built path. Rows with another slug are never
      candidates and may be anything (drafts with an empty slug, say). */
  lemma ResolveBuiltPath(s: Store, rank: map<Id, nat>, rows: seq<Id>, r: Id)
    requires WellFounded(s, rank) && ScansTable(s, rows) && CleanChain(s, rank, r)
    requires s[r].postType == "post"
    requires forall q :: q in s && q != r && s[q].postType == "post" && s[q].slug == s[r].slug ==>
               CleanChain(s, rank, q) && BuildPath(s, rank, q, "") != BuildPath(s, rank, r, "")
    ensures Resolve(s, rows, "/" + BuildPath(s, rank, r, "") + "/") == Some(r)
  {
    var p := BuildPath(s, rank, r, "");
    var uri := "/" + p + "/";
    CleanPathUnpadded(s, rank, r);
    TrimWrapped(p);
    MatchesIffBuiltPath(s, rank, r, uri);
    assert s[r].slug == Basename(uri);
    forall q | q in rows && q != r
      ensures !Matches(s, q, uri)
    {
      if q in s && s[q].postType == "post" && s[q].slug == s[r].slug {
        OtherAncestryRejected(s, rank, r, q);
      }
    }
    assert r in rows;
  }
}

=== FILE: permalink_hooks.dfy ===
/** The two link filters: `get_sample_permalink`, which shows the editor a permalink
    template with the parent path in front of the `%postname%` placeholder, and
    `post_link`, which gives a parented post its hierarchical link. */
module PermalinkHooks {
  import opened Strings
  import opened Posts
  import opened PathBuilder

  /** The `[template, replacement]` pair WordPress passes to `get_sample_permalink`:
      the template holds `%postname%`, the replacement is the slug to put there. */
  datatype SamplePermalink = SamplePermalink(template: string, replacement: string)

  /** The placeholder WordPress puts in permalink templates. */
  const PostnameTag: string := "%postname%"

  /** The `get_sample_permalink` filter for the post `id`. A post of another type, or
      one without a parent, keeps its pair. Otherwise every `/%postname%/` in the
      template becomes the parent's path followed by `/%postname%/`, and the
      replacement slug is kept. */
  function SamplePermalinkFilter(s: Store, ghost rank: map<Id, nat>, id: Id, permalink: SamplePermalink)
    : (r: SamplePermalink)
    requires WellFounded(s, rank) && id in s
    ensures s[id].postType != "post" || s[id].parent == 0 ==> r == permalink
    ensures r.replacement == permalink.replacement
    ensures s[id].postType == "post" && s[id].parent != 0 ==>
              r.template == Replace(permalink.template, "/" + PostnameTag + "/",
                                    "/" + BuildPath(s, rank, s[id].parent, "") + "/" + PostnameTag + "/")
  {
    if s[id].postType != "post" || s[id].parent == 0 then permalink
    else
      var altered := BuildPath(s, rank, id, PostnameTag);
      BuildPathRootFirst(s, rank, id, PostnameTag);
      assert "/" + altered + "/" == "/" + BuildPath(s, rank, s[id].parent, "") + "/" + PostnameTag + "/";
      SamplePermalink(Replace(permalink.template, "/" + PostnameTag + "/", "/" + altered + "/"),
                      permalink.replacement)
  }

  /** The `post_link` filter for the post `id`, with `home_url` as the parameter
      `homeUrl`. A post of another type, one without a parent, or a draft keeps its
      link. Otherwise the link is the home URL of the post's path: with the
      `%postname%` placeholder kept in the last segment when the incoming link holds
      it in any letter case, with the post's own slug there otherwise. */
  function PostLinkFilter(s: Store, ghost rank: map<Id, nat>, id: Id, postLink: string,
                          homeUrl: string -> string): (r: string)
    requires WellFounded(s, rank) && id in s
    ensures s[id].postType != "post" || s[id].parent == 0 || s[id].status == "draft" ==> r == postLink
    ensures s[id].postType == "post" && s[id].parent != 0 && s[id].status != "draft" ==>
              r == homeUrl(if ContainsIgnoringCase(postLink, PostnameTag)
                           then BuildPath(s, rank, s[id].parent, "") + "/" + PostnameTag
                           else BuildPath(s, rank, id, ""))
  {
    if s[id].postType != "post" || s[id].parent == 0 || s[id].status == "draft" then postLink
    else
      var postSlug := if ContainsIgnoringCase(postLink, PostnameTag) then PostnameTag else s[id].slug;
      BuildPathRootFirst(s, rank, id, postSlug);
      BuildPathRootFirst(s, rank, id, "");
      homeUrl(BuildPath(s, rank, id, postSlug))
  }

  // ---------------------------------------------------------------------------
  // Lemmas

  /** For the usual template, `<prefix>/%postname%/<suffix>` with no '%' outside the
      placeholder, the edited template puts the parent's path in front of the
      placeholder and changes nothing else. */
  lemma SampleTemplateSplice(s: Store, rank: map<Id, nat>, id: Id, a: string, b: string, replacement: string)
    requires WellFounded(s, rank) && id in s
    requires s[id].postType == "post" && s[id].parent != 0
    requires '%' !in a && '%' !in b
    ensures SamplePermalinkFilter(s, rank, id, SamplePermalink(a + "/" + PostnameTag + "/" + b, replacement))
            == SamplePermalink(a + "/" + BuildPath(s, rank, s[id].parent, "") + "/" + PostnameTag + "/" + b,
                               replacement)
  {
    var pat := "/" + PostnameTag + "/";
    var rep := "/" + BuildPath(s, rank, s[id].parent, "") + "/" + PostnameTag + "/";
    assert a + pat + b == a + "/" + PostnameTag + "/" + b;
    assert a + rep + b == a + "/" + BuildPath(s, rank, s[id].parent, "") + "/" + PostnameTag + "/" + b;
    ReplaceSoleOccurrence(a, pat, b, rep, '%');
  }
}

=== FILE: posts.dfy ===
/** The posts table the plugin reads: every row of WordPress's posts table, keyed by
    its id, with the four columns the plugin looks at. */
module Posts {

  datatype Option<+T> = None | Some(value: T)

  /** A post id. Ids start at 1; 0 is the "empty" parent id that marks a root. */
  type Id = nat

  /** One row: `post_name` (the slug), `post_parent`, `post_type` and `post_status`. */
  datatype Post = Post(slug: string, parent: Id, postType: string, status: string)

  type Store = map<Id, Post>

  /** `get_post($id)`: the row with that id, if there is one. */
  function Lookup(s: Store, x: Id): (r: Option<Id>)
    ensures r.Some? <==> x in s
    ensures r.Some? ==> r.value == x
  {
    if x in s then Some(x) else None
  }

  /** `$p->post_name` where `$p` may be null: a missing row reads as the empty slug. */
  function SlugAt(s: Store, x: Id): string
  {
    if x in s then s[x].slug else ""
  }

  /** `$p->post_parent` where `$p` may be null: a missing row reads as the empty parent. */
  function ParentOf(s: Store, x: Id): Id
  {
    if x in s then s[x].parent else 0
  }

  /** The parent relation of `s` is well founded, witnessed by `rank`: every row's
      parent, when it exists, has a smaller rank. No row has the empty id 0. */
  ghost predicate WellFounded(s: Store, rank: map<Id, nat>)
  {
    && 0 !in s
    && forall x {:trigger s[x]} :: x in s ==>
         && x in rank
         && (s[x].parent in s ==> s[x].parent in rank && rank[s[x].parent] < rank[x])
  }
}

=== FILE: preview.dfy ===
/** The `preview_post_link` filter, `preview_redirect_fix($url)`: the preview link of
    a draft is rebuilt as `scheme://host/index.php?query`, dropping the pretty path.
    `parse_url` is outside the model: its result comes in as `UrlParts`. */
module Preview {

  /** The parts of the link `parse_url` yields; a part the link lacks is the empty
      string, as PHP renders the null it reads. */
  datatype UrlParts = UrlParts(scheme: string, host: string, query: string)

  /** The filter, for the global post's status `postStatus` (empty when there is no
      global post): a draft's link becomes the entry point with the same query string,
      any other link is kept. */
  function PreviewRedirectFix(url: string, parts: UrlParts, postStatus: string): (r: string)
    ensures postStatus != "draft" ==> r == url
    ensures postStatus == "draft" ==> parts.scheme + "://" + parts.host <= r
  {
    if postStatus == "draft" then
      parts.scheme + "://" + parts.host + "/index.php?" + parts.query
    else url
  }

  /** What precedes the first '?' of a link (all of it when there is none). */
  function BeforeQuery(url: string): (r: string)
    ensures r <= url
    ensures '?' !in r
  {
    if |url| == 0 || url[0] == '?' then "" else [url[0]] + BeforeQuery(url[1..])
  }

  /** What follows the first '?' of a link (nothing when there is none). */
  function QueryOf(url: string): string
  {
    if |url| == 0 then "" else if url[0] == '?' then url[1..] else QueryOf(url[1..])
  }

  /** Splitting at the first '?' of `a + "?" + b`, when `a` holds no '?', gives back
      `a` and `b`. */
  lemma {:induction false} SplitAtQuery(a: string, b: string)
    requires '?' !in a
    ensures BeforeQuery(a + "?" + b) == a
    ensures QueryOf(a + "?" + b) == b
    decreases |a|
  {
    var u := a + "?" + b;
    if |a| == 0 {
      assert u == "?" + b;
      assert u[1..] == b;
    } else {
      assert u[0] == a[0] && u[1..] == a[1..] + "?" + b;
      assert '?' !in a[1..] by {
        forall i | 0 <= i < |a[1..]| ensures a[1..][i] != '?' { assert a[1..][i] == a[i + 1]; }
      }
      SplitAtQuery(a[1..], b);
      assert [a[0]] + a[1..] == a;
    }
  }

  /** A draft's rewritten preview link carries the same query string, behind the path
      `/index.php` on the same scheme and host. */
  lemma DraftPreviewKeepsQuery(url: string, parts: UrlParts)
    requires '?' !in parts.scheme && '?' !in parts.host
    ensures var r := PreviewRedirectFix(url, parts, "draft");
            && QueryOf(r) == parts.query
            && BeforeQuery(r) == parts.scheme + "://" + parts.host + "/index.php"
  {
    var a := parts.scheme + "://" + parts.host + "/index.php";
    assert PreviewRedirectFix(url, parts, "draft") == a + "?" + parts.query;
    assert '?' !in a;
    SplitAtQuery(a, parts.query);
  }
}

=== FILE: routing.dfy ===
/** The `pre_get_posts` action: for a request that is not the front page, on the main
    query and outside the admin screens, resolve the request path and, on a match,
    turn the query into a single-post view of the resolved post. */
module Routing {
  import opened Strings
  import opened Posts
  import opened PathBuilder
  import opened PathResolver

  /** The query variables the action writes: `post_type` holds a list of type names,
      `page_id` a number. */
  datatype QueryVar = Text(text: string) | Number(number: int) | Types(types: seq<string>)

  /** The part of a `WP_Query` the action reads or writes. */
  datatype Query = Query(
    vars: map<string, QueryVar>,
    isHome: bool,
    isAttachment: bool,
    isPage: bool,
    isSingle: bool,
    is404: bool,
    queriedObjectId: int)

  /** What the action leaves behind: the query it was handed, the global `$wp_query`,
      and the value it returns. */
  datatype Routed = Routed(query: Query, wpQuery: Query, returned: Query)

  /** `str_replace('?' . $query_string, '', $request_uri)` */
  function StripQueryString(requestUri: string, queryString: string): string
  {
    Replace(requestUri, "?" + queryString, "")
  }

  /** The query turned into a single-post view of `id`: `post_type` is `['post']`,
      `page_id` and the queried object are `id`, it is a page and a single view and
      neither home, an attachment nor a 404; every other query variable is kept. */
  function SinglePostView(q: Query, id: Id): (r: Query)
    ensures r.vars.Keys == q.vars.Keys + {"post_type", "page_id"}
    ensures r.vars["post_type"] == Types(["post"]) && r.vars["page_id"] == Number(id)
    ensures forall k :: k in q.vars && k != "post_type" && k != "page_id" ==> r.vars[k] == q.vars[k]
    ensures !r.isHome && !r.isAttachment && !r.is404 && r.isPage && r.isSingle
    ensures r.queriedObjectId == id
  {
    Query(q.vars["post_type" := Types(["post"])]["page_id" := Number(id)],
          false, false, true, true, false, id)
  }

  /** The `pre_get_posts` action. `requestUri` and `queryString` are the server's
      `REQUEST_URI` and `QUERY_STRING` (empty when unset), `isMainQuery` and `isAdmin`
      stand for `$query->is_main_query()` and `is_admin()`, and `rows` is the order
      the database returns the resolver's rows in. */
  function PreGetPosts(s: Store, rows: seq<Id>, query: Query, wpQuery: Query,
                       requestUri: string, queryString: string,
                       isMainQuery: bool, isAdmin: bool): (r: Routed)
    requires ScansTable(s, rows)
    ensures var uri := StripQueryString(requestUri, queryString);
            uri == "/" || !isMainQuery || isAdmin ==> r == Routed(query, wpQuery, wpQuery)
    ensures var uri := StripQueryString(requestUri, queryString);
            uri != "/" && isMainQuery && !isAdmin && Resolve(s, rows, uri).None? ==>
              r == Routed(query, wpQuery, query)
    ensures var uri := StripQueryString(requestUri, queryString);
            uri != "/" && isMainQuery && !isAdmin && Resolve(s, rows, uri).Some? ==>
              && r.query == SinglePostView(query, Resolve(s, rows, uri).value)
              && r.wpQuery == r.query && r.returned == r.query
              && Matches(s, r.query.queriedObjectId, uri)
  {
    var uri := StripQueryString(requestUri, queryString);
    if uri != "/" && isMainQuery && !isAdmin then
      var post := Resolve(s, rows, uri);
      if post.None? then Routed(query, wpQuery, query)
      else
        assert Matches(s, post.value, uri) by {
          var k := FirstMatch(s, rows, uri);
          assert post.value == rows[k];
        }
        var q := SinglePostView(query, post.value);
        Routed(q, q, q)
    else Routed(query, wpQuery, wpQuery)
  }

  // ---------------------------------------------------------------------------
  // Lemmas

  /** Stripping the query string recovers the path of a request whose path holds no
      '?', whether or not the request carries the query string. */
  lemma StripQueryStringOfPath(path: string, queryString: string)
    requires '?' !in path
    ensures StripQueryString(path + "?" + queryString, queryString) == path
    ensures StripQueryString(path, queryString) == path
  {
    var pat := "?" + queryString;
    var t := path + pat + "";
    assert t == path + "?" + queryString;
    assert NoMatchBefore(t, pat, |path|) by {
      forall i | 0 <= i < |path| && i <= |t|
        ensures !(pat <= t[i..])
      {
        assert t[i] == path[i];
      }
    }
    ReplaceAfter(path, pat, "", "");
    assert NoMatchBefore(path, pat, |path|) by {
      forall i | 0 <= i < |path| && i <= |path|
        ensures !(pat <= path[i..])
      {
        assert path[i..][0] == path[i] && path[i] in path;
      }
    }
    ReplaceWithoutMatch(path, pat, "");
  }

  /** End to end: the main-query request for `/<built path>/`, with or without a query
      string, is routed to a single-post view of the post it was built from, when the
      post's chain is clean and free of '?' and every other `post` row with the same
      slug has a clean chain and another path. */
  lemma RoutesBuiltPath(s: Store, rank: map<Id, nat>, rows: seq<Id>, r: Id,
                        query: Query, wpQuery: Query, queryString: string)
    requires WellFounded(s, rank) && ScansTable(s, rows) && CleanChain(s, rank, r)
    requires forall x :: x in Chain(s, rank, r) ==> '?' !in SlugAt(s, x)
    requires s[r].postType == "post"
    requires forall q :: q in s && q != r && s[q].postType == "post" && s[q].slug == s[r].slug ==>
               CleanChain(s, rank, q) && BuildPath(s, rank, q, "") != BuildPath(s, rank, r, "")
    ensures var path := "/" + BuildPath(s, rank, r, "") + "/";
            var routed := PreGetPosts(s, rows, query, wpQuery, path + "?" + queryString, queryString, true, false);
            routed.query == SinglePostView(query, r) && routed.wpQuery == routed.query
  {
    var p := BuildPath(s, rank, r, "");
    var path := "/" + p + "/";
    var c := Chain(s, rank, r);
    var slugs := Reverse(ChainSlugs(s, c, r, ""));
    forall i | 0 <= i < |slugs|
      ensures '?' !in slugs[i]
    {
      assert c[|c| - 1 - i] in c;
    }
    JoinAvoids(slugs, '?');
    assert '?' !in path;
    StripQueryStringOfPath(path, queryString);
    ResolveBuiltPath(s, rank, rows, r);
    assert path != "/" by {
      assert |path| >= 2;
    }
  }
}

=== FILE: strings.dfy ===
/** The string builtins the plugin relies on, with the meaning PHP and MySQL give them:
    `implode`/`explode` on '/', `trim` with the character list '/', MySQL
    `TRIM(BOTH '/' FROM ...)`, `basename`, `str_replace` and `stristr`. */
module Strings {

  /** `array_reverse` */
  function Reverse<T>(xs: seq<T>): (r: seq<T>)
    ensures |r| == |xs|
    ensures forall i :: 0 <= i < |xs| ==> r[i] == xs[|xs| - 1 - i]
  {
    seq(|xs|, i requires 0 <= i < |xs| => xs[|xs| - 1 - i])
  }

  function Last<T>(xs: seq<T>): T
    requires |xs| > 0
  {
    xs[|xs| - 1]
  }

  /** `implode('/', parts)`, and also MySQL `concat(a, '/', b, '/', ...)`. */
  function Join(parts: seq<string>): string
  {
    if |parts| == 0 then ""
    else if |parts| == 1 then parts[0]
    else parts[0] + "/" + Join(parts[1..])
  }

  /** `explode('/', s)`: splitting never yields an empty list (the empty string gives
      one empty piece) and no piece holds a separator. */
  function Split(s: string): (r: seq<string>)
    ensures |r| >= 1
    ensures forall i :: 0 <= i < |r| ==> '/' !in r[i]
  {
    if |s| == 0 then [""]
    else
      var rest := Split(s[1..]);
      if s[0] == '/' then [""] + rest
      else [[s[0]] + rest[0]] + rest[1..]
  }

  /** A run of `n` separators. */
  function Slashes(n: nat): (r: string)
    ensures |r| == n
    ensures forall i :: 0 <= i < n ==> r[i] == '/'
  {
    seq(n, _ => '/')
  }

  /** `n` empty strings, the value MySQL's `IFNULL(slug, '')` gives levels that do not exist. */
  function Blanks(n: nat): (r: seq<string>)
    ensures |r| == n
    ensures forall i :: 0 <= i < n ==> r[i] == ""
  {
    seq(n, _ => "")
  }

  /** Removes every leading '/'; the result does not start with '/'. */
  function TrimLeft(s: string): (r: string)
    ensures |r| <= |s|
    ensures |r| > 0 ==> r[0] != '/'
  {
    if |s| > 0 && s[0] == '/' then TrimLeft(s[1..]) else s
  }

  /** Removes every trailing '/'; the result does not end with '/'. */
  function TrimRight(s: string): (r: string)
    ensures |r| <= |s|
    ensures |r| > 0 ==> r[|r| - 1] != '/'
  {
    if |s| > 0 && s[|s| - 1] == '/' then TrimRight(s[..|s| - 1]) else s
  }

  /** PHP `trim($s, '/')`, which is also MySQL `TRIM(BOTH '/' FROM s)`: the result
      neither starts nor ends with '/' (see `TrimCutsOnlySlashes` for what it keeps). */
  function Trim(s: string): (r: string)
    ensures |r| > 0 ==> r[0] != '/' && r[|r| - 1] != '/'
  {
    var t := TrimRight(s);
    TrimLeftCutsOnlySlashes(t);
    TrimLeft(t)
  }

  /** True of a string that `Trim` leaves alone. */
  predicate Unpadded(p: string)
  {
    |p| > 0 && p[0] != '/' && p[|p| - 1] != '/'
  }

  /** PHP `basename($u)`: the last component of `u` once trailing separators are gone. */
  function Basename(u: string): (r: string)
    ensures '/' !in r
  {
    Last(Split(TrimRight(u)))
  }

  /** `str_replace(pat, rep, s)`: scans left to right and replaces each occurrence of
      `pat` that does not overlap an earlier replaced one. An empty `pat` changes nothing. */
  function Replace(s: string, pat: string, rep: string): string
    decreases |s|
  {
    if |pat| == 0 || |s| == 0 then s
    else if pat <= s then rep + Replace(s[|pat|..], pat, rep)
    else [s[0]] + Replace(s[1..], pat, rep)
  }

  /** ASCII lower-casing, as `stristr` does it. */
  function LowerChar(c: char): char
  {
    if 'A' <= c <= 'Z' then (c as int + 32) as char else c
  }

  function Lower(s: string): (r: string)
    ensures |r| == |s|
  {
    seq(|s|, i requires 0 <= i < |s| => LowerChar(s[i]))
  }

  /** `stristr($hay, $needle)` being truthy: `needle` occurs in `hay` ignoring ASCII case. */
  predicate ContainsIgnoringCase(hay: string, needle: string)
  {
    exists i :: 0 <= i <= |hay| && Lower(needle) <= Lower(hay)[i..]
  }

  // ---------------------------------------------------------------------------
  // Lemmas

  /** `TrimLeft` keeps a suffix of its argument and cuts off only '/'. */
  lemma {:induction false} TrimLeftCutsOnlySlashes(s: string)
    ensures TrimLeft(s) == s[|s| - |TrimLeft(s)|..]
    ensures forall i :: 0 <= i < |s| - |TrimLeft(s)| ==> s[i] == '/'
    decreases |s|
  {
    if |s| > 0 && s[0] == '/' {
      TrimLeftCutsOnlySlashes(s[1..]);
      forall i | 0 < i < |s| - |TrimLeft(s)|
        ensures s[i] == '/'
      {
        assert s[i] == s[1..][i - 1];
      }
    }
  }

  /** `TrimRight` keeps a prefix of its argument and cuts off only '/'. */
  lemma {:induction false} TrimRightCutsOnlySlashes(s: string)
    ensures TrimRight(s) == s[..|TrimRight(s)|]
    ensures forall i :: |TrimRight(s)| <= i < |s| ==> s[i] == '/'
    decreases |s|
  {
    if |s| > 0 && s[|s| - 1] == '/' {
      TrimRightCutsOnlySlashes(s[..|s| - 1]);
    }
  }

  /** `Trim` keeps a slice of its argument and cuts off only '/' on either side. */
  lemma TrimCutsOnlySlashes(s: string)
    ensures exists a, b ::
              && 0 <= a <= b <= |s| && Trim(s) == s[a..b]
              && (forall i :: 0 <= i < a ==> s[i] == '/')
              && (forall i :: b <= i < |s| ==> s[i] == '/')
  {
    var t := TrimRight(s);
    TrimRightCutsOnlySlashes(s);
    TrimLeftCutsOnlySlashes(t);
    var a := |t| - |TrimLeft(t)|;
    assert Trim(s) == s[a..|t|];
    assert forall i :: 0 <= i < a ==> s[i] == t[i];
  }

  /** Joining one more part at the end appends a separator and that part. */
  lemma {:induction false} JoinSnoc(parts: seq<string>, p: string)
    requires |parts| > 0
    ensures Join(parts + [p]) == Join(parts) + "/" + p
    decreases |parts|
  {
    if |parts| == 1 {
      assert parts + [p] == [parts[0], p];
      assert [parts[0], p][1..] == [p];
    } else {
      assert (parts + [p])[1..] == parts[1..] + [p];
      JoinSnoc(parts[1..], p);
    }
  }

  /** Leading empty parts turn into leading separators. */
  lemma {:induction false} JoinBlanks(n: nat, parts: seq<string>)
    requires |parts| > 0
    ensures Join(Blanks(n) + parts) == Slashes(n) + Join(parts)
    decreases n
  {
    if n > 0 {
      var xs := Blanks(n) + parts;
      assert xs[1..] == Blanks(n - 1) + parts;
      JoinBlanks(n - 1, parts);
      assert Slashes(n) == "/" + Slashes(n - 1);
    } else {
      assert Blanks(0) + parts == parts;
    }
  }

  /** A joined string starts with the first part and ends with the last one. */
  lemma {:induction false} JoinEnds(parts: seq<string>)
    requires |parts| > 0
    ensures parts[0] <= Join(parts)
    ensures |Last(parts)| <= |Join(parts)|
    ensures Join(parts)[|Join(parts)| - |Last(parts)|..] == Last(parts)
    decreases |parts|
  {
    if |parts| > 1 {
      JoinEnds(parts[1..]);
      var j := Join(parts[1..]);
      assert Join(parts) == parts[0] + "/" + j;
      assert Last(parts[1..]) == Last(parts);
      var k := |Join(parts)| - |Last(parts)|;
      assert Join(parts)[k..] == j[|j| - |Last(parts)|..];
    }
  }

  /** Joining parts that are non-empty and free of separators gives an unpadded string. */
  lemma JoinUnpadded(parts: seq<string>)
    requires |parts| > 0
    requires forall i :: 0 <= i < |parts| ==> parts[i] != "" && '/' !in parts[i]
    ensures Unpadded(Join(parts))
  {
    JoinEnds(parts);
    var j := Join(parts);
    var l := Last(parts);
    assert l[|l| - 1] == j[|j| - |l|..][|l| - 1];
    assert l[|l| - 1] in l;
    assert parts[0][0] in parts[0];
  }

  /** A character other than the separator that occurs in no part does not occur in
      their join. */
  lemma {:induction false} JoinAvoids(parts: seq<string>, c: char)
    requires c != '/'
    requires forall i :: 0 <= i < |parts| ==> c !in parts[i]
    ensures c !in Join(parts)
    decreases |parts|
  {
    if |parts| > 1 {
      JoinAvoids(parts[1..], c);
    }
  }

  /** A piece without separators splits into itself. */
  lemma {:induction false} SplitPlain(p: string)
    requires '/' !in p
    ensures Split(p) == [p]
    decreases |p|
  {
    if |p| > 0 {
      assert '/' !in p[1..] by {
        forall i | 0 <= i < |p[1..]| ensures p[1..][i] != '/' { assert p[1..][i] == p[i + 1]; }
      }
      SplitPlain(p[1..]);
      assert [p[0]] + p[1..] == p;
    }
  }

  /** Splitting `p/t` gives `p` followed by the pieces of `t`. */
  lemma {:induction false} SplitCons(p: string, t: string)
    requires '/' !in p
    ensures Split(p + "/" + t) == [p] + Split(t)
    decreases |p|
  {
    var s := p + "/" + t;
    if |p| == 0 {
      assert s[1..] == t;
    } else {
      assert s[1..] == p[1..] + "/" + t;
      assert '/' !in p[1..] by {
        forall i | 0 <= i < |p[1..]| ensures p[1..][i] != '/' { assert p[1..][i] == p[i + 1]; }
      }
      SplitCons(p[1..], t);
      assert [p[0]] + p[1..] == p;
    }
  }

  /** `explode` undoes `implode` when no part contains the separator. */
  lemma {:induction false} SplitJoin(parts: seq<string>)
    requires |parts| > 0
    requires forall i :: 0 <= i < |parts| ==> '/' !in parts[i]
    ensures Split(Join(parts)) == parts
    decreases |parts|
  {
    if |parts| == 1 {
      SplitPlain(parts[0]);
    } else {
      SplitJoin(parts[1..]);
      SplitCons(parts[0], Join(parts[1..]));
      assert [parts[0]] + parts[1..] == parts;
    }
  }

  /** `implode` undoes `explode` for every string. */
  lemma {:induction false} JoinSplit(s: string)
    ensures Join(Split(s)) == s
    decreases |s|
  {
    if |s| > 0 {
      var rest := Split(s[1..]);
      JoinSplit(s[1..]);
      if s[0] == '/' {
        assert ([""] + rest)[1..] == rest;
        assert s == "/" + s[1..];
      } else {
        var xs := [[s[0]] + rest[0]] + rest[1..];
        if |rest| == 1 {
          assert Join(rest) == rest[0];
        } else {
          assert xs[1..] == rest[1..];
          assert Join(rest) == rest[0] + "/" + Join(rest[1..]);
        }
        assert s == [s[0]] + s[1..];
      }
    }
  }

  /** Removing leading separators does not change the last component. */
  lemma {:induction false} LastSplitTrimLeft(t: string)
    ensures Last(Split(TrimLeft(t))) == Last(Split(t))
    decreases |t|
  {
    if |t| > 0 && t[0] == '/' {
      LastSplitTrimLeft(t[1..]);
    }
  }

  /** The basename is the last of the pieces the slash-trimmed string splits into. */
  lemma BasenameIsLastSegment(u: string)
    ensures Basename(u) == Last(Split(Trim(u)))
  {
    LastSplitTrimLeft(TrimRight(u));
  }

  lemma {:induction false} TrimLeftSlashes(n: nat, p: string)
    requires |p| > 0 && p[0] != '/'
    ensures TrimLeft(Slashes(n) + p) == p
    decreases n
  {
    if n > 0 {
      assert (Slashes(n) + p)[1..] == Slashes(n - 1) + p;
      TrimLeftSlashes(n - 1, p);
    } else {
      assert Slashes(0) + p == p;
    }
  }

  lemma {:induction false} TrimRightSlashes(p: string, n: nat)
    requires |p| > 0 && p[|p| - 1] != '/'
    ensures TrimRight(p + Slashes(n)) == p
    decreases n
  {
    if n > 0 {
      assert (p + Slashes(n))[..|p| + n - 1] == p + Slashes(n - 1);
      TrimRightSlashes(p, n - 1);
    } else {
      assert p + Slashes(0) == p;
    }
  }

  /** Trimming removes exactly the padding of separators around an unpadded string. */
  lemma TrimPadded(m: nat, p: string, n: nat)
    requires Unpadded(p)
    ensures Trim(Slashes(m) + p + Slashes(n)) == p
  {
    var q := Slashes(m) + p;
    assert q[|q| - 1] == p[|p| - 1];
    TrimRightSlashes(q, n);
    TrimLeftSlashes(m, p);
  }

  /** Empty trailing parts, once reversed and joined, become leading separators, which
      trimming removes again when the rest joins to an unpadded string. */
  lemma TrimBlankLevels(parts: seq<string>, m: nat)
    requires |parts| > 0 && Unpadded(Join(Reverse(parts)))
    ensures Trim(Join(Reverse(parts + Blanks(m)))) == Join(Reverse(parts))
  {
    var p := Join(Reverse(parts));
    assert Reverse(parts + Blanks(m)) == Blanks(m) + Reverse(parts);
    JoinBlanks(m, Reverse(parts));
    TrimPadded(m, p, 0);
    assert Slashes(m) + p + Slashes(0) == Slashes(m) + p;
  }

  /** Wrapping an unpadded string in one separator on each side and trimming gives it back. */
  lemma TrimWrapped(p: string)
    requires Unpadded(p)
    ensures Trim("/" + p + "/") == p
  {
    TrimPadded(1, p, 1);
    assert Slashes(1) == "/";
  }

  /** No occurrence of `pat` starts at a position before `n` of `s`. */
  predicate NoMatchBefore(s: string, pat: string, n: nat)
  {
    forall i :: 0 <= i < n && i <= |s| ==> !(pat <= s[i..])
  }

  /** When no occurrence of `pat` starts before position `n`, the first `n`
      characters are copied unchanged. */
  lemma {:induction false} ReplaceKeepsPrefix(s: string, pat: string, rep: string, n: nat)
    requires 0 < |pat| && n <= |s|
    requires NoMatchBefore(s, pat, n)
    ensures Replace(s, pat, rep) == s[..n] + Replace(s[n..], pat, rep)
    decreases n
  {
    if n == 0 {
      assert s[..0] + s[0..] == s;
    } else {
      assert s[0..] == s;
      assert !(pat <= s);
      assert Replace(s, pat, rep) == [s[0]] + Replace(s[1..], pat, rep);
      assert NoMatchBefore(s[1..], pat, n - 1) by {
        forall i | 0 <= i < n - 1 && i <= |s[1..]|
          ensures !(pat <= s[1..][i..])
        {
          assert s[1..][i..] == s[i + 1..];
        }
      }
      ReplaceKeepsPrefix(s[1..], pat, rep, n - 1);
      assert s[1..][n - 1..] == s[n..];
      assert [s[0]] + s[1..][..n - 1] == s[..n];
    }
  }

  /** A string in which `pat` does not occur is left unchanged. */
  lemma ReplaceWithoutMatch(s: string, pat: string, rep: string)
    requires NoMatchBefore(s, pat, |s|)
    ensures Replace(s, pat, rep) == s
  {
    if |pat| > 0 {
      ReplaceKeepsPrefix(s, pat, rep, |s|);
      assert s[..|s|] == s;
    }
  }

  /** A pattern whose second character `c` occurs neither before nor after it, and
      whose first character is not `c`, is replaced exactly once. */
  lemma ReplaceSoleOccurrence(a: string, pat: string, b: string, rep: string, c: char)
    requires |pat| >= 2 && pat[0] != c && pat[1] == c
    requires c !in a && c !in b
    ensures Replace(a + pat + b, pat, rep) == a + rep + b
  {
    var t := a + pat + b;
    assert NoMatchBefore(t, pat, |a|) by {
      forall i | 0 <= i < |a| && i <= |t|
        ensures !(pat <= t[i..])
      {
        if i + 1 < |a| {
          assert t[i..][1] == a[i + 1] && a[i + 1] in a;
        } else {
          assert t[i..][1] == pat[0];
        }
      }
    }
    ReplaceAfter(a, pat, b, rep);
    assert NoMatchBefore(b, pat, |b|) by {
      forall i | 0 <= i < |b| && i <= |b|
        ensures !(pat <= b[i..])
      {
        if i + 1 < |b| {
          assert b[i..][1] == b[i + 1] && b[i + 1] in b;
        }
      }
    }
    ReplaceWithoutMatch(b, pat, rep);
  }

  /** When no occurrence of `pat` starts inside `a`, replacing in `a + pat + b` keeps
      `a`, replaces that occurrence and goes on in `b`. */
  lemma ReplaceAfter(a: string, pat: string, b: string, rep: string)
    requires |pat| > 0
    requires NoMatchBefore(a + pat + b, pat, |a|)
    ensures Replace(a + pat + b, pat, rep) == a + rep + Replace(b, pat, rep)
  {
    var s := a + pat + b;
    ReplaceKeepsPrefix(s, pat, rep, |a|);

    assert s[..|a|] == a;
    var t := s[|a|..];
    assert t == pat + b;
    assert t[|pat|..] == b;
  }
}
